=== FILE: README.md ===
# A verified model of the simple Go wiki

The wiki serves plain-text pages over HTTP. A page with title `T` lives in
the file `data/T.txt`. Three paths act on it: `/view/T` renders it,
`/edit/T` renders an edit form, and `/save/T` stores the `body` form field.
Every path outside the three prefixes `/view/`, `/edit/` and `/save/`
redirects to `/view/FrontPage` (apart from `ServeMux`'s own redirects;
see "Left out"); a prefixed path without a valid title gets NotFound. When a page is rendered,
each bracketed link `[X]` in its body becomes `<a href="/view/X">[X]</a>`.

This project models the request-handling core of `wiki.go` in Dafny and
proves its properties:

- `wrappers.dfy`, module `Wrappers`: the `Option` type.
- `links.dfy`, module `Links`: the link renderer `replaceLink` and its
  pattern `\[([a-zA-z]+?)\]`. It holds a hand-written scanner
  (`MatchEnd`, `ScanFrom`), a tokenizer (`Tokenize`), the renderer
  (`ReplaceLink`), and the replacement loop as methods (`ReplaceLinkScan`,
  `NextPiece`, `FindGap`): each round searches forward for the next match,
  copies the gap before it, and appends the match's anchor.
  A reference definition of a leftmost-first, non-overlapping scan
  (`Scanned`) is proved to agree with the tokenizer.
- `link_examples.dfy`, module `LinkExamples`: worked inputs. They include
  the ones the `A-z` range lets through, and a proof that the renderer is
  not idempotent.
- `paths.dfy`, module `Paths`: the path guard
  `^/(edit|save|view)/([a-zA-Z0-9]+)$` as a hand-written matcher
  (`MatchPath`), and the file name `data/<title>.txt`.
- `wiki.dfy`, module `Wiki`: the handlers and the routing. `Step(store,
  request, env)` returns the response and the new store. The store maps
  file paths to file contents. `env` supplies the I/O outcomes the model
  does not compute: whether the read fails, how the write ends, and
  whether the template fails.

Modelling decisions:

- Go strings and byte slices are byte sequences. Here they are `string`,
  with one character per byte. Go's regular expressions decode UTF-8, but
  that gives the same matches as scanning bytes. The brackets and every
  class character are ASCII, and an invalid UTF-8 byte decodes to a
  width-one error rune that never absorbs an ASCII byte.
- The link pattern is modelled exactly as written. The range `A-z` covers
  everything from `A` to `z`. So besides letters it admits `[`, `\`, `]`,
  `^`, `_` and backtick. For example, `[]x]` is a link named `]x`.
- `+?` is lazy, so a match ends at the first `]` that comes after at least
  one class character.
- Routing follows the handler registrations. A path that starts with
  `/view/`, `/edit/` or `/save/` goes through the path guard. A path that
  fails the guard gets NotFound. A path outside the three prefixes goes
  to the root handler and is redirected to `/view/FrontPage`. So
  `/foo/bar` is not refused; it reaches the root handler and is
  redirected (`Wiki.UnknownVerbRedirects`).
- The handler bound to a prefix runs, not the one for the verb the guard
  captured. `Wiki.RouteAgreesWithMatch` proves that the two always agree.
- Reading a page fails when its file is missing or when `env` says the
  read fails. In both cases the handlers treat the page as absent.
- A failed write returns ServerError. `env` decides what the failed write
  leaves behind: either the file is untouched, or it now holds some
  other bytes (`ioutil.WriteFile` truncates before it writes). Nothing is
  claimed about the saved page after a failure. Every other page's file
  path is proved unchanged. The store is keyed by path string, so this
  holds as long as distinct path strings name distinct files.

## Model

| member | source | states |
|---|---|---|
| Links.InClass | wiki.go:24 | the class `[a-zA-z]` is exactly the characters from `A` to `z`, since the range `A-z` swallows `a-z` and the six characters between `Z` and `a` |
| Links.MatchesAt | wiki.go:24 | no contract of its own: the definition of a match at the front; `Links.MatchEndCorrect` and `Links.MatchEndUnique` specify it |
| Links.MatchEnd | wiki.go:24 | a match the scanner reports starts with `[`, ends with `]` and is at least three bytes long |
| Links.ScanFrom | wiki.go:24 | the lazy `+?` scan ends a match just after a `]` that lies beyond the position where it resumed |
| Links.ScanFromCorrect | wiki.go:24 | once one or more class characters have been read, the scan stops at the first `]`, and it fails exactly when no match starts at the front |
| Links.MatchEndCorrect | wiki.go:24 | the scanner's end is a match of `\[([a-zA-z]+?)\]` at the front of the text, and it returns None exactly when no match starts there |
| Links.MatchEndUnique | wiki.go:24 | a match starting at a given position has only one end, because the lazy quantifier stops at the first `]` |
| Links.First | wiki.go:92-96 | the token at the front of a non-empty body consumes at least one byte and no more than the body holds |
| Links.FirstCorrect | wiki.go:92-96 | the front token is a link exactly when a match starts there; a link's name is the match without its outer brackets, and otherwise the first byte is copied |
| Links.FirstSource | wiki.go:92-96 | the front token is read from exactly the first bytes of the body |
| Links.TokenizeSource | wiki.go:92-96 | the unmatched bytes and the matches, read back in order, are exactly the input |
| Links.Anchor | wiki.go:94 | no contract of its own: the `Sprintf` text; `LinkExamples.AnchorEndsWithLinkText` and `Links.EmitLength` specify it |
| Links.Tokenize | wiki.go:92-96 | no contract of its own: the split into matches and copied bytes; `Links.TokenizeSource` and `Links.ScannedIffTokenize` specify it |
| Links.ReplaceLink | wiki.go:91-98 | no contract of its own: `replaceLink`; `Links.ReplaceLinkRewrites`, `Links.ReplaceLinkLength` and `Links.ReplaceLinkIdentity` specify it |
| Links.ReplaceLinkTokens | wiki.go:91-98 | `replaceLink` renders exactly the tokens the scan splits its input into |
| Links.ScannedCons | wiki.go:92-96 | taking the front token and then scanning the rest is a leftmost-first scan of the whole body |
| Links.TokenizeScanned | wiki.go:92-96 | the tokenizer takes a link wherever a match starts and copies one byte wherever none does, left to right and without overlap |
| Links.ScannedUnique | wiki.go:92-96 | any token sequence that scans the input leftmost-first without overlap is the tokenizer's |
| Links.ScannedIffTokenize | wiki.go:92-96 | a token sequence is a leftmost-first non-overlapping scan of the input if and only if it is the tokenizer's output |
| Links.ReplaceLinkRewrites | wiki.go:91-98 | the output is the in-order concatenation of the unmatched bytes, copied verbatim, and of each match `[X]` rewritten to `<a href="/view/X">[X]</a>` |
| Links.ReplaceLinkAtMatch | wiki.go:92-95 | a match at the front becomes the anchor for its name without the outer brackets, and rendering resumes right after the match |
| Links.ReplaceLinkAtLiteral | wiki.go:92-96 | a byte where no match starts is copied, and rendering resumes at the next byte |
| Links.MatchYieldsLink | wiki.go:92-96 | a match anywhere in the body yields a rewritten link in the output |
| Links.LinkYieldsMatch | wiki.go:92-96 | every rewritten link comes from a match in the body |
| Links.HasMatchIffLink | wiki.go:92-96 | the body contains a match if and only if the scan rewrites at least one link |
| Links.EmitLength | wiki.go:93-94 | each replacement is strictly longer than the match it replaces, and unmatched bytes keep their length |
| Links.ReplaceLinkLength | wiki.go:91-98 | the output is never shorter than the body, and it has the same length exactly when the body has no match |
| Links.ReplaceLinkIdentity | wiki.go:91-98 | the body is returned unchanged if and only if it contains no match |
| Links.NoBracketUnchanged | wiki.go:91-98 | a body with no `[` is returned unchanged |
| Links.ReplaceLinkScan | wiki.go:92-96 | the replacement loop, one round per match (or one final round for the text after the last match), produces the rendered body |
| Links.NextPiece | wiki.go:92-95 | one round consumes a gap of `g` bytes in which no match starts, then either a match starting right after the gap, emitting the gap unchanged followed by that match's anchor, or (when no match is left) everything, copied unchanged; the emitted piece followed by the rendering of the rest is the rendering of the whole |
| Links.RoundShape | wiki.go:92-95 | a round's output is the copied gap followed by the anchor of the match that ends it, which is a match at the gap's end of the text, or the whole remaining text when no match is left |
| Links.FindGap | wiki.go:92 | the search splits the text at the first position where a match starts (or at its end): no match starts anywhere in the gap, the scanner finds a match at the split, and the gap renders as itself |
| Links.CopyGapByte | wiki.go:92 | a byte where no match starts is copied into the gap, and rendering continues at the next byte |
| Links.AnchorAfterGap | wiki.go:92-95 | the match that ends a gap is rendered as its anchor right after the copied gap |
| LinkExamples.PlainStep | wiki.go:92-96 | a byte other than `[` in front of a body is copied ahead of the body's rendering |
| LinkExamples.PlainPrefix | wiki.go:91-98 | text without `[` in front of a body is copied unchanged ahead of that body's rendering |
| LinkExamples.LinkThen | wiki.go:24 | a `[`, a name of class characters with no `]` after its first character, and a `]` together become that name's anchor |
| LinkExamples.OneLinkInText | wiki.go:91-98 | one link between two bracket-free texts becomes one anchor, and both texts are unchanged |
| LinkExamples.LinkInText | wiki.go:91-98 | `See [FrontPage] for more` renders as `See <a href="/view/FrontPage">[FrontPage]</a> for more` |
| LinkExamples.NonClassBreaksMatch | wiki.go:24 | a character outside the class met before any closing `]` means no match starts at the front |
| LinkExamples.DigitsBreakMatch | wiki.go:24 | digits are outside the class, so `[abc123]` passes through literally |
| LinkExamples.ClosingBracketInName | wiki.go:24 | `]` is inside the `A-z` range, so `[]x]` is one link named `]x` |
| LinkExamples.OpeningBracketInName | wiki.go:24 | `[` is inside the `A-z` range, so `[[a]` is one link named `[a`, found from the leftmost bracket |
| LinkExamples.AnchorEndsWithLinkText | wiki.go:94 | the anchor for X ends with the link text `[X]` followed by `</a>` |
| LinkExamples.AnchorHasMatch | wiki.go:24 | the anchor for a name that came from a match contains a match again |
| LinkExamples.NotIdempotent | wiki.go:91-98 | rendering the output for `[X]` a second time changes it, because the anchor's label is still the link text `[X]` |
| Paths.ParseVerb | wiki.go:23 | the verb alternation accepts a segment exactly when it is one of the three verb names, and gives that verb |
| Paths.IsTitle | wiki.go:23 | no contract of its own: the title group `[a-zA-Z0-9]+`; `Paths.MatchPathExact` and `Paths.TitleIsPlain` specify it |
| Paths.MatchPath | wiki.go:23 | a path the matcher accepts is `/<verb>/<title>` with an alphanumeric, non-empty title, and the submatches are that verb and title |
| Paths.PathOfParts | wiki.go:23 | in `/<verb>/<title>` the verb is at indices 1 to 4 and the title starts at index 6 |
| Paths.MatchPathExact | wiki.go:23 | a path is accepted with verb v and title t if and only if it equals `/` + v + `/` + t and t is a non-empty string over `[a-zA-Z0-9]` |
| Paths.TitleIsPlain | wiki.go:23 | an accepted title contains no `/` and no `.` |
| Paths.FileName | wiki.go:27-28 | no contract of its own: `data/` + title + `.txt`, as built in `save` and `loadPage` (wiki.go:32-33); `Paths.FileInPageDirectory` and `Paths.FileNameInjective` specify it |
| Paths.FileInPageDirectory | wiki.go:27-28 | the file of an accepted title is `data/` + title + `.txt`, with no separator after `data/` and no dot except the one of `.txt` |
| Paths.FileNameInjective | wiki.go:32-33 | distinct titles never share a file path |
| Wiki.LoadPage | wiki.go:31-38 | a page loads exactly when its file exists and the read does not fail, and then it carries its own title and the file's contents as its body |
| Wiki.SavePage | wiki.go:26-29 | the save reports success exactly when the write completes; after a successful write the page loads back with the saved body, and no other title's file path changes, whether or not the write succeeds |
| Wiki.RenderTemplate | wiki.go:40-46 | a rendered page carries its title and body and, as the HTML body, the body with links rewritten; a template failure is a server error |
| Wiki.ViewHandler | wiki.go:48-55 | viewing never changes the store; a page that cannot be loaded redirects to `/edit/` + title, and a stored page is rendered with `view` and its stored body |
| Wiki.EditHandler | wiki.go:57-63 | editing never changes the store and answers a render of `edit` for the requested title exactly when the template does not fail, otherwise a server error; the body shown is the stored one, or empty when the page cannot be loaded |
| Wiki.SaveHandler | wiki.go:65-74 | a save answers with a redirect to `/view/` + title or a server error; the redirect happens exactly when the write succeeds, and then the page loads back with the submitted body; other titles' file paths are unchanged |
| Wiki.FormBody | wiki.go:66 | the `body` form value is the submitted field, or the empty string when the field is absent |
| Wiki.MakeHandler | wiki.go:76-85 | a path that fails the guard gets NotFound and no handler runs |
| Wiki.HandleRoot | wiki.go:87-89 | the root handler always redirects to `/view/FrontPage` and changes nothing |
| Wiki.FrontPageIsViewPath | wiki.go:88 | the redirect target `/view/FrontPage` is the view path of the title `FrontPage`, and the guard accepts it with that verb and title |
| Wiki.Handle | wiki.go:83 | no contract of its own: the handler each prefix is bound to (wiki.go:102-104) called with the captured title, only the save handler receiving the `body` form value; `Wiki.ValidPathDispatch` and the view, edit and save lemmas specify it |
| Wiki.RouteOf | wiki.go:101-104 | no contract of its own: the prefix routing of the handler registrations; `Wiki.RouteOfPrefix` specifies it |
| Wiki.Step | wiki.go:101-104 | no contract of its own: one request through routing and its handler; `Wiki.OtherPathsRedirect`, `Wiki.ValidPathDispatch` and `Wiki.NotFoundIffInvalid` specify it |
| Wiki.RouteOfPrefix | wiki.go:101-104 | a path goes to a verb's handler if and only if it starts with that verb's prefix `/<verb>/` |
| Wiki.RouteAgreesWithMatch | wiki.go:76-85 | a path the guard accepts was routed to the handler of the verb it names |
| Wiki.OtherPathsRedirect | wiki.go:101 | the root and every path outside the three prefixes redirect to `/view/FrontPage` and leave the store unchanged |
| Wiki.ValidPathDispatch | wiki.go:78-83 | on a valid path, the handler of its verb runs and receives exactly the title |
| Wiki.NotFoundIffInvalid | wiki.go:78-82 | the response is NotFound if and only if the path has a handler prefix but fails the guard, and the store is then unchanged |
| Wiki.OnlySaveWrites | wiki.go:48-74 | only a save request on a valid path can change the store, so view and edit never do |
| Wiki.ViewPresentRenders | wiki.go:48-54 | viewing a stored page renders `view` with its stored body and that body with links rewritten, and changes nothing |
| Wiki.EditPresentRendersStored | wiki.go:57-62 | editing a stored page renders `edit` with its stored body, and changes nothing |
| Wiki.ViewAbsentRedirects | wiki.go:49-52 | viewing a page that cannot be loaded redirects to `/edit/` + title and changes nothing |
| Wiki.EditAbsentRendersEmpty | wiki.go:58-62 | editing a page that cannot be loaded renders `edit` with that title and an empty body |
| Wiki.SaveStores | wiki.go:65-74 | a successful save redirects to `/view/` + title, the page then loads with the submitted body, and every other title's file path loads as before |
| Wiki.SaveFailureIsServerError | wiki.go:68-71 | a failed write gives a server error and touches no other title's file path |
| Wiki.SaveThenView | wiki.go:48-74 | saving a body and then viewing the page renders that body, with its links rewritten |
| Wiki.UnknownVerbRedirects | wiki.go:101 | `/foo/bar` is redirected to the front page, not refused |
| Wiki.DashedTitleNotFound | wiki.go:78-81 | `/view/has-dash` fails the guard and gets NotFound |

## Left out

- Network I/O: `http.ListenAndServe`, the response writer and status codes
  (wiki.go:105). A response is a value: Redirect, Render, NotFound or
  ServerError.
- `net/http.ServeMux` behaviour the source does not show is left out.
  This covers path cleaning (`/view/../x`) and the redirect from `/view`
  to `/view/`. Only prefix-versus-catch-all routing is modelled.
- HTTP methods: the handlers ignore them, so a request carries none.
- Template parsing and execution and the `tmpl/*.html` files (wiki.go:22,
  wiki.go:42-45) are external. A render is an opaque `Render` value. A
  template failure is an `env` flag that yields ServerError. Output
  written before a mid-template failure, and the error text, are not
  modelled.
- Form parsing by `r.FormValue` (wiki.go:66) is left out. The request
  carries the `body` field, if present, and an absent field reads as the
  empty string.
- Real file I/O is left out: the permission bits `0600`, the text of I/O
  errors, and the reasons a read or write fails. The store is a map, and
  `env` supplies each outcome.
- Case-insensitive file systems and links inside `data/`: the store
  treats distinct path strings as distinct files. On a case-insensitive
  file system, `/save/Foo` would also replace the page `foo`, which the
  model does not capture.
- Wiki.SavePage: after a failed write, the saved page's file is whatever
  `env` says it is. This is because a failed `ioutil.WriteFile` can leave
  it truncated or partly written.
- Concurrency: each request is one step. Concurrent saves racing on one
  file are not modelled.
- General Go regular-expression semantics: only the two fixed patterns
  are encoded, each as a hand-written matcher.

=== FILE: link_examples.dfy ===
/** Worked cases of the link renderer, including the ones the `A-z` range lets through. */
module LinkExamples {
  import opened Links

  /** A byte other than `[` in front of a body is copied ahead of the body's rendering. */
  lemma PlainStep(c: char, s: string)
    requires c != '['
    ensures ReplaceLink([c] + s) == [c] + ReplaceLink(s)
  {
    var w := [c] + s;
    assert w[1..] == s;
    ReplaceLinkAtLiteral(w);
  }

  /** Bytes with no opening bracket are copied ahead of whatever follows. */
  lemma {:induction false} PlainPrefix(p: string, s: string)
    requires '[' !in p
    ensures ReplaceLink(p + s) == p + ReplaceLink(s)
    decreases |p|
  {
    if p == [] {
      assert p + s == s;
    } else {
      assert p + s == [p[0]] + (p[1..] + s);
      PlainStep(p[0], p[1..] + s);
      PlainPrefix(p[1..], s);
      ConcatAssoc([p[0]], p[1..], ReplaceLink(s));
      assert p == [p[0]] + p[1..];
    }
  }

  /** A bracketed name that the pattern accepts becomes an anchor ahead of whatever follows. */
  lemma LinkThen(n: string, s: string)
    requires |n| > 0
    requires forall i :: 0 <= i < |n| ==> InClass(n[i])
    requires forall i :: 1 <= i < |n| ==> n[i] != ']'
    ensures ReplaceLink("[" + n + "]" + s) == Anchor(n) + ReplaceLink(s)
  {
    var w := "[" + n + "]" + s;
    var e := |n| + 2;
    assert w[1..e - 1] == n;
    assert w[e..] == s;
    assert MatchesAt(w, e) by {
      forall k | 1 <= k < e - 1 ensures InClass(w[k]) && (k >= 2 ==> w[k] != ']') {
        assert w[k] == n[k - 1];
      }
    }
    ReplaceLinkAtMatch(w, e);
  }

  /** One link between two bracket-free texts becomes one anchor, the texts around it unchanged. */
  lemma OneLinkInText(head: string, name: string, tail: string)
    requires '[' !in head
    requires '[' !in tail
    requires |name| > 0
    requires forall i :: 0 <= i < |name| ==> InClass(name[i])
    requires forall i :: 1 <= i < |name| ==> name[i] != ']'
    ensures ReplaceLink(head + ("[" + name + "]" + tail)) == head + (Anchor(name) + tail)
  {
    PlainPrefix(head, "[" + name + "]" + tail);
    LinkThen(name, tail);
    NoBracketUnchanged(tail);
  }

  /** The sentence `See [FrontPage] for more` gets exactly one anchor. */
  lemma LinkInText()
    ensures ReplaceLink("See [FrontPage] for more") == "See " + (Anchor("FrontPage") + " for more")
  {
    assert "See [FrontPage] for more" == "See " + ("[" + "FrontPage" + "]" + " for more");
    OneLinkInText("See ", "FrontPage", " for more");
  }

  /**
   * A character outside the class, met before any `]` that could close
   * the match, means no match starts at the front.
   */
  lemma NonClassBreaksMatch(s: string, k: nat)
    requires 1 <= k < |s| && !InClass(s[k])
    requires forall j :: 2 <= j < k ==> s[j] != ']'
    ensures !StartsWithMatch(s)
  {
    forall e: nat | MatchesAt(s, e) ensures k < e - 1 {
      assert s[e - 1] == ']';
    }
  }

  /**
   * Digits break a match, so `[abc123]` passes through literally. The
   * string is a parameter fixed by the precondition so that the verifier
   * does not evaluate the renderer on the literal eagerly.
   */
  lemma DigitsBreakMatch(s: string)
    requires s == "[abc123]"
    ensures ReplaceLink(s) == s
  {
    var rest := s[1..];
    assert rest == "abc123]";
    NonClassBreaksMatch(s, 4);
    ReplaceLinkAtLiteral(s);
    NoBracketUnchanged(rest);
    assert s == [s[0]] + rest;
  }

  /** `]` is a class character, so `[]x]` is a match whose name is `]x`. */
  lemma ClosingBracketInName()
    ensures ReplaceLink("[]x]") == Anchor("]x")
  {
    var s := "[]x]";
    assert MatchesAt(s, 4);
    ReplaceLinkAtMatch(s, 4);
    assert s[1..3] == "]x";
    assert s[4..] == [];
    NoBracketUnchanged([]);
  }

  /** `[` is a class character too, so `[[a]` is one match, taken from the leftmost bracket. */
  lemma OpeningBracketInName()
    ensures ReplaceLink("[[a]") == Anchor("[a")
  {
    var s := "[[a]";
    assert MatchesAt(s, 4);
    ReplaceLinkAtMatch(s, 4);
    assert s[1..3] == "[a";
    assert s[4..] == [];
    NoBracketUnchanged([]);
  }

  /** The anchor for a name ends with the name's link text and the closing tag. */
  lemma AnchorEndsWithLinkText(n: string)
    ensures Anchor(n)[|n| + 17..] == "[" + n + "]" + "</a>"
  {
    var head := "<a href=\"/view/" + n + "\">";
    assert Anchor(n) == head + ("[" + n + "]" + "</a>");
  }

  /** The link text inside an anchor is itself a match, whenever the name came from one. */
  lemma AnchorHasMatch(n: string)
    requires |n| > 0
    requires forall i :: 0 <= i < |n| ==> InClass(n[i])
    requires forall i :: 1 <= i < |n| ==> n[i] != ']'
    ensures HasMatch(Anchor(n))
  {
    var a, i := Anchor(n), |n| + 17;
    AnchorEndsWithLinkText(n);
    var text := a[i..];
    assert MatchesAt(text, |n| + 2) by {
      forall k | 1 <= k < |n| + 1 ensures InClass(text[k]) && (k >= 2 ==> text[k] != ']') {
        assert text[k] == n[k - 1];
      }
    }
    assert StartsWithMatch(a[i..]);
  }

  /**
   * The renderer is not idempotent: the anchor for `[X]` still carries
   * `[X]` as its label, which the next rendering rewrites again.
   */
  lemma NotIdempotent(n: string)
    requires |n| > 0
    requires forall i :: 0 <= i < |n| ==> InClass(n[i])
    requires forall i :: 1 <= i < |n| ==> n[i] != ']'
    ensures ReplaceLink(ReplaceLink("[" + n + "]")) != ReplaceLink("[" + n + "]")
  {
    var x := "[" + n + "]";
    LinkThen(n, []);
    assert x + [] == x;
    assert ReplaceLink(x) == Anchor(n);
    AnchorHasMatch(n);
    ReplaceLinkLength(Anchor(n));
  }
}

=== FILE: links.dfy ===
/**
 * The link renderer of the wiki: every non-overlapping match of the
 * pattern `\[([a-zA-z]+?)\]` in a page body, taken left to right, is
 * replaced by `<a href="/view/X">[X]</a>`, where X is the match without
 * its outer brackets. Text outside the matches is copied unchanged.
 *
 * Page bodies are byte strings; a `string` here holds one byte per
 * character. Scanning bytes gives the same matches as scanning UTF-8
 * runes, because the brackets and the whole character class are ASCII.
 */
module Links {
  import opened Wrappers

  /**
   * Membership in the character class `[a-zA-z]`. The second range runs
   * from 'A' up to 'z', so besides letters it admits the six characters
   * between 'Z' and 'a': '[', '\', ']', '^', '_' and '`'.
   */
  predicate InClass(c: char)
    ensures InClass(c) <==> 'A' <= c <= 'z'
  {
    ('a' <= c <= 'z') || ('A' <= c <= 'z')
  }

  /**
   * `s` begins with a match of the link pattern that ends just before
   * index `e`: an opening bracket, one or more class characters, and a
   * closing bracket which is the first `]` after the first class
   * character (the lazy `+?` stops there).
   */
  predicate MatchesAt(s: string, e: nat) {
    && 3 <= e <= |s|
    && s[0] == '['
    && s[e - 1] == ']'
    && (forall k :: 1 <= k < e - 1 ==> InClass(s[k]))
    && (forall k :: 2 <= k < e - 1 ==> s[k] != ']')
  }

  /** Some match of the link pattern starts at index 0 of `s`. */
  ghost predicate StartsWithMatch(s: string) {
    exists e :: MatchesAt(s, e)
  }

  /** Some match of the link pattern starts somewhere in `s`. */
  ghost predicate HasMatch(s: string) {
    exists i :: 0 <= i < |s| && StartsWithMatch(s[i..])
  }

  /** A match starting at index 0 has exactly one end. */
  lemma MatchEndUnique(s: string, e1: nat, e2: nat)
    requires MatchesAt(s, e1) && MatchesAt(s, e2)
    ensures e1 == e2
  {
  }

  /**
   * The scanner: the end of the match that starts at index 0 of `s`,
   * or None when no match starts there (see `MatchEndCorrect`).
   */
  function MatchEnd(s: string): (r: Option<nat>)
    ensures r.Some? ==> 3 <= r.value <= |s| && s[0] == '[' && s[r.value - 1] == ']'
  {
    if |s| < 3 || s[0] != '[' || !InClass(s[1]) then None
    else ScanFrom(s, 2)
  }

  /**
   * Continues the lazy scan at index `j`: the first `]` ends the match,
   * another class character is consumed, anything else fails it.
   */
  function ScanFrom(s: string, j: nat): (r: Option<nat>)
    requires j <= |s|
    ensures r.Some? ==> j < r.value <= |s| && s[r.value - 1] == ']'
    decreases |s| - j
  {
    if j == |s| then None
    else if s[j] == ']' then Some(j + 1)
    else if InClass(s[j]) then ScanFrom(s, j + 1)
    else None
  }

  /**
   * Once `s[1..j]` has been read as class characters with no `]` after
   * the first of them, the rest of the scan finds the match of `s` if
   * there is one, and fails only if there is none.
   */
  lemma {:induction false} ScanFromCorrect(s: string, j: nat)
    requires 2 <= j <= |s| && s[0] == '['
    requires forall k :: 1 <= k < j ==> InClass(s[k])
    requires forall k :: 2 <= k < j ==> s[k] != ']'
    ensures ScanFrom(s, j).Some? ==> MatchesAt(s, ScanFrom(s, j).value)
    ensures ScanFrom(s, j).None? <==> forall e :: !MatchesAt(s, e)
    decreases |s| - j
  {
    if j == |s| {
    } else if s[j] == ']' {
      assert MatchesAt(s, j + 1);
    } else if InClass(s[j]) {
      ScanFromCorrect(s, j + 1);
    }
  }

  /** The scanner finds the match at the start of `s`, and fails exactly when there is none. */
  lemma MatchEndCorrect(s: string)
    ensures MatchEnd(s).Some? ==> MatchesAt(s, MatchEnd(s).value)
    ensures MatchEnd(s).None? <==> !StartsWithMatch(s)
  {
    if |s| < 3 || s[0] != '[' || !InClass(s[1]) {
      forall e | 3 <= e <= |s| && s[0] == '[' ensures !MatchesAt(s, e) {
        assert 1 < e - 1;
      }
    } else {
      ScanFromCorrect(s, 2);
    }
  }

  /** Concatenation is associative; stated once so proofs can cite it cheaply. */
  lemma ConcatAssoc(a: string, b: string, c: string)
    ensures a + (b + c) == (a + b) + c
  {
  }

  /** A piece of a scanned body: a byte copied verbatim, or a link match `[name]`. */
  datatype Token = Lit(c: char) | Link(name: string)

  /** The markup a link match is rewritten to. */
  function Anchor(name: string): string {
    "<a href=\"/view/" + name + "\">[" + name + "]</a>"
  }

  /** The text a token was read from. */
  function Source(t: Token): string {
    match t
    case Lit(c) => [c]
    case Link(n) => "[" + n + "]"
  }

  /** The number of bytes a token was read from. */
  function Width(t: Token): nat {
    match t
    case Lit(_) => 1
    case Link(n) => |n| + 2
  }

  /** The text a token is rendered as. */
  function Emit(t: Token): string {
    match t
    case Lit(c) => [c]
    case Link(n) => Anchor(n)
  }

  /** The concatenated source text of a token sequence. */
  function SourceAll(ts: seq<Token>): string {
    if ts == [] then [] else Source(ts[0]) + SourceAll(ts[1..])
  }

  /** The concatenated rendering of a token sequence. */
  function EmitAll(ts: seq<Token>): string {
    if ts == [] then [] else Emit(ts[0]) + EmitAll(ts[1..])
  }

  /** No token of `ts` is a link. */
  predicate NoLinks(ts: seq<Token>) {
    forall i :: 0 <= i < |ts| ==> ts[i].Lit?
  }

  /**
   * Reference definition of a leftmost-first, non-overlapping scan:
   * `ts` reads `s` from left to right, taking a link wherever a match
   * starts, and copying one byte wherever none does.
   */
  ghost predicate Scanned(s: string, ts: seq<Token>)
    decreases |ts|
  {
    if ts == [] then s == []
    else match ts[0]
      case Lit(c) =>
        |s| > 0 && s[0] == c && !StartsWithMatch(s) && Scanned(s[1..], ts[1..])
      case Link(n) =>
        MatchesAt(s, |n| + 2) && s[1..|n| + 1] == n && Scanned(s[|n| + 2..], ts[1..])
  }

  /** The token at the front of a non-empty body: the match there, or else its first byte. */
  function First(s: string): (t: Token)
    requires s != []
    ensures 0 < Width(t) <= |s|
  {
    match MatchEnd(s)
    case Some(e) => Link(s[1..e - 1])
    case None => Lit(s[0])
  }

  /**
   * The front token is a link exactly when a match starts there; a link
   * covers that match, and a literal is the first byte.
   */
  lemma FirstCorrect(s: string)
    requires s != []
    ensures First(s).Link? <==> StartsWithMatch(s)
    ensures First(s).Link? ==> MatchesAt(s, Width(First(s))) && First(s).name == s[1..Width(First(s)) - 1]
    ensures First(s).Lit? ==> First(s) == Lit(s[0])
  {
    MatchEndCorrect(s);
  }

  /** The front token is read from exactly the first bytes of the body. */
  lemma FirstSource(s: string)
    requires s != []
    ensures Source(First(s)) == s[..Width(First(s))]
  {
    MatchEndCorrect(s);
  }

  /** Splits a body into tokens, left to right, with the scanner above. */
  function Tokenize(s: string): seq<Token>
    decreases |s|
  {
    if s == [] then [] else [First(s)] + Tokenize(s[Width(First(s))..])
  }

  /**
   * `replaceLink`: scanning left to right, a match at the front becomes
   * an anchor and the scan resumes after it; otherwise one byte is copied.
   */
  function ReplaceLink(s: string): string
    decreases |s|
  {
    if s == [] then [] else Emit(First(s)) + ReplaceLink(s[Width(First(s))..])
  }

  /** Reading the tokens back gives the body: the scan drops and adds nothing. */
  lemma {:induction false} TokenizeSource(s: string)
    ensures SourceAll(Tokenize(s)) == s
    decreases |s|
  {
    if s != [] {
      var ts, w := Tokenize(s), Width(First(s));
      assert ts[1..] == Tokenize(s[w..]);
      TokenizeSource(s[w..]);
      FirstSource(s);
      assert s == s[..w] + s[w..];
    }
  }

  /** `replaceLink` renders exactly the tokens of its input. */
  lemma {:induction false} ReplaceLinkTokens(s: string)
    ensures ReplaceLink(s) == EmitAll(Tokenize(s))
    decreases |s|
  {
    if s != [] {
      var ts, w := Tokenize(s), Width(First(s));
      assert ts[1..] == Tokenize(s[w..]);
      ReplaceLinkTokens(s[w..]);
    }
  }

  /** One step of `ReplaceLink`: a leading match becomes an anchor. */
  lemma ReplaceLinkAtMatch(s: string, e: nat)
    requires MatchesAt(s, e)
    ensures ReplaceLink(s) == Anchor(s[1..e - 1]) + ReplaceLink(s[e..])
  {
    FirstCorrect(s);
    MatchEndUnique(s, Width(First(s)), e);
  }

  /** One step of `ReplaceLink`: a byte where no match starts is copied. */
  lemma ReplaceLinkAtLiteral(s: string)
    requires |s| > 0 && !StartsWithMatch(s)
    ensures ReplaceLink(s) == [s[0]] + ReplaceLink(s[1..])
  {
    FirstCorrect(s);
  }

  /** The front token followed by a reference scan of the rest is a reference scan of the whole. */
  lemma ScannedCons(s: string, rest: seq<Token>)
    requires s != [] && Scanned(s[Width(First(s))..], rest)
    ensures Scanned(s, [First(s)] + rest)
  {
    FirstCorrect(s);
    var ts := [First(s)] + rest;
    assert ts[0] == First(s) && ts[1..] == rest;
  }

  /** The scanner reads `s` exactly as the reference scan does. */
  lemma {:induction false} TokenizeScanned(s: string)
    ensures Scanned(s, Tokenize(s))
    decreases |s|
  {
    if s != [] {
      var w := Width(First(s));
      TokenizeScanned(s[w..]);
      ScannedCons(s, Tokenize(s[w..]));
    }
  }

  /** The reference scan of a body is unique: it is the scanner's. */
  lemma {:induction false} ScannedUnique(s: string, ts: seq<Token>)
    requires Scanned(s, ts)
    ensures ts == Tokenize(s)
    decreases |ts|
  {
    if ts != [] {
      FirstCorrect(s);
      if ts[0].Link? {
        MatchEndUnique(s, Width(First(s)), Width(ts[0]));
      }
      ScannedUnique(s[Width(ts[0])..], ts[1..]);
      assert ts == [ts[0]] + ts[1..];
    }
  }

  /** The reference scan is exactly the scanner's token sequence. */
  lemma ScannedIffTokenize(s: string, ts: seq<Token>)
    ensures Scanned(s, ts) <==> ts == Tokenize(s)
  {
    if Scanned(s, ts) {
      ScannedUnique(s, ts);
    } else if ts == Tokenize(s) {
      TokenizeScanned(s);
    }
  }

  /**
   * `replaceLink` is the in-order concatenation of the unmatched bytes,
   * copied verbatim, and of every match rewritten to an anchor, where the
   * matches are taken left to right without overlap.
   */
  lemma ReplaceLinkRewrites(s: string, ts: seq<Token>)
    requires Scanned(s, ts)
    ensures SourceAll(ts) == s
    ensures ReplaceLink(s) == EmitAll(ts)
  {
    ScannedUnique(s, ts);
    TokenizeSource(s);
    ReplaceLinkTokens(s);
  }

  /** A match somewhere in `s` shows up as a link token of the scan. */
  lemma {:induction false} MatchYieldsLink(s: string)
    requires HasMatch(s)
    ensures !NoLinks(Tokenize(s))
    decreases |s|
  {
    var ts := Tokenize(s);
    FirstCorrect(s);
    if ts[0].Lit? {
      var rest := Tokenize(s[1..]);
      assert ts[1..] == rest;
      var i :| 0 <= i < |s| && StartsWithMatch(s[i..]);
      assert i != 0 by { assert s[0..] == s; }
      assert s[1..][i - 1..] == s[i..];
      MatchYieldsLink(s[1..]);
      var j :| 0 <= j < |rest| && rest[j].Link?;
      assert ts[j + 1].Link?;
    }
  }

  /** Every link token of the scan is a match somewhere in `s`. */
  lemma {:induction false} LinkYieldsMatch(s: string)
    requires !NoLinks(Tokenize(s))
    ensures HasMatch(s)
    decreases |s|
  {
    var ts := Tokenize(s);
    FirstCorrect(s);
    if ts[0].Link? {
      assert s[0..] == s;
    } else {
      var rest := Tokenize(s[1..]);
      assert ts[1..] == rest;
      var j :| 0 <= j < |ts| && ts[j].Link?;
      assert rest[j - 1].Link?;
      LinkYieldsMatch(s[1..]);
      var i :| 0 <= i < |s| - 1 && StartsWithMatch(s[1..][i..]);
      assert s[1..][i..] == s[i + 1..];
    }
  }

  /** A match somewhere in `s` shows up as a link token, and vice versa. */
  lemma HasMatchIffLink(s: string)
    ensures HasMatch(s) <==> !NoLinks(Tokenize(s))
  {
    if HasMatch(s) {
      MatchYieldsLink(s);
    }
    if !NoLinks(Tokenize(s)) {
      LinkYieldsMatch(s);
    }
  }

  /** Every token renders to at least its source; links to strictly more. */
  lemma {:induction false} EmitLength(ts: seq<Token>)
    ensures |EmitAll(ts)| >= |SourceAll(ts)|
    ensures |EmitAll(ts)| == |SourceAll(ts)| <==> NoLinks(ts)
    ensures NoLinks(ts) ==> EmitAll(ts) == SourceAll(ts)
    decreases |ts|
  {
    if ts != [] {
      EmitLength(ts[1..]);
      if !NoLinks(ts) && ts[0].Lit? {
        var j :| 0 <= j < |ts| && ts[j].Link?;
        assert ts[1..][j - 1].Link?;
      }
    }
  }

  /**
   * `replaceLink` never shortens a body, and leaves its length unchanged
   * exactly when the body contains no match.
   */
  lemma ReplaceLinkLength(s: string)
    ensures |ReplaceLink(s)| >= |s|
    ensures |ReplaceLink(s)| == |s| <==> !HasMatch(s)
  {
    TokenizeSource(s);
    ReplaceLinkTokens(s);
    EmitLength(Tokenize(s));
    HasMatchIffLink(s);
  }

  /** `replaceLink` returns its input unchanged exactly when there is no match. */
  lemma ReplaceLinkIdentity(s: string)
    ensures ReplaceLink(s) == s <==> !HasMatch(s)
  {
    TokenizeSource(s);
    ReplaceLinkTokens(s);
    EmitLength(Tokenize(s));
    HasMatchIffLink(s);
  }

  /** A body without an opening bracket has no match, so it is returned unchanged. */
  lemma {:induction false} NoBracketUnchanged(s: string)
    requires '[' !in s
    ensures ReplaceLink(s) == s
  {
    if s != [] {
      assert s[0] != '[';
      assert First(s) == Lit(s[0]);
      assert '[' !in s[1..];
      NoBracketUnchanged(s[1..]);
      assert s == [s[0]] + s[1..];
    }
  }

  /**
   * The scanning loop of the regular-expression replacement: find the
   * next match, copy the bytes before it, append the anchor, and resume
   * after the match; each round is one call of `NextPiece`.
   */
  method ReplaceLinkScan(s: string) returns (out: string)
    ensures out == ReplaceLink(s)
  {
    out := [];
    var rest := s;
    while rest != []
      invariant out + ReplaceLink(rest) == ReplaceLink(s)
      decreases |rest|
    {
      var piece, len, _ := NextPiece(rest);
      ConcatAssoc(out, piece, ReplaceLink(rest[len..]));
      out := out + piece;
      rest := rest[len..];
    }
  }

  /**
   * One round of the replacement: search forward for the next match and
   * return the bytes before it followed by the match's anchor, or the
   * whole remainder when no match is left, together with the number of
   * bytes consumed and the length `g` of the copied gap.
   */
  method NextPiece(rest: string) returns (piece: string, len: nat, g: nat)
    requires |rest| > 0
    ensures 0 < len <= |rest| && g <= len
    ensures forall i :: 0 <= i < g ==> !StartsWithMatch(rest[i..])
    ensures g < len ==> MatchesAt(rest[g..], len - g) && piece == rest[..g] + Anchor(rest[g + 1..len - 1])
    ensures g == len ==> len == |rest| && piece == rest
    ensures ReplaceLink(rest) == piece + ReplaceLink(rest[len..])
  {
    var gap, tail := FindGap(rest);
    g := |gap|;
    if tail == [] {
      piece, len := gap, |gap|;
      RoundAtEnd(rest, gap, tail, len);
    } else {
      var e := MatchEnd(tail).value;
      piece, len := gap + Anchor(tail[1..e - 1]), |gap| + e;
      RoundAtMatch(ReplaceLink(rest), rest, gap, tail, e, len, piece);
    }
    RoundShape(rest, gap, tail, piece, len, g);
  }

  /**
   * The search for the next match: the bytes before the first position
   * where a match starts, which are copied unchanged, and the rest of
   * the body from that position on (empty when no match is left).
   */
  method FindGap(rest: string) returns (gap: string, tail: string)
    ensures gap + tail == rest
    ensures forall i :: 0 <= i < |gap| ==> !StartsWithMatch(rest[i..])
    ensures tail != [] ==> MatchEnd(tail).Some?
    ensures ReplaceLink(rest) == gap + ReplaceLink(tail)
  {
    gap, tail := [], rest;
    ghost var target := ReplaceLink(rest);
    while tail != [] && MatchEnd(tail).None?
      invariant gap + tail == rest
      invariant forall i :: 0 <= i < |gap| ==> !StartsWithMatch(rest[i..])
      invariant target == gap + ReplaceLink(tail)
      decreases |tail|
    {
      CopyGapByte(target, gap, tail);
      GapStaysMatchFree(rest, gap, tail);
      MoveFirst(rest, gap, tail);
      gap, tail := gap + [tail[0]], tail[1..];
    }
  }

  /** The shape of a round's output: the gap, then the anchor of the match that ends it, if any. */
  lemma RoundShape(s: string, gap: string, tail: string, piece: string, n: nat, g: nat)
    requires gap + tail == s && g == |gap|
    requires tail != [] ==> MatchEnd(tail).Some?
    requires tail == [] ==> piece == gap && n == g
    requires tail != [] ==> piece == gap + Anchor(tail[1..MatchEnd(tail).value - 1]) && n == g + MatchEnd(tail).value
    ensures g <= n <= |s|
    ensures g < n ==> MatchesAt(s[g..], n - g) && piece == s[..g] + Anchor(s[g + 1..n - 1])
    ensures g == n ==> n == |s| && piece == s
  {
    if tail == [] {
      assert gap == s;
    } else {
      var e := MatchEnd(tail).value;
      MatchEndCorrect(tail);
      SplitSlices(s, gap, tail, e, g, n);
    }
  }

  /** A round that finds no match copies all that is left. */
  lemma RoundAtEnd(s: string, gap: string, tail: string, n: nat)
    requires gap + tail == s && tail == [] && n == |gap|
    requires ReplaceLink(s) == gap + ReplaceLink(tail)
    ensures n == |s| && gap == s && ReplaceLink(s) == gap + ReplaceLink(s[n..])
  {
    assert gap + tail == gap;
  }

  /** A byte where no match starts extends a gap in which no match starts. */
  lemma GapStaysMatchFree(s: string, gap: string, tail: string)
    requires gap + tail == s && |tail| > 0 && MatchEnd(tail).None?
    requires forall i :: 0 <= i < |gap| ==> !StartsWithMatch(s[i..])
    ensures forall i :: 0 <= i < |gap| + 1 ==> !StartsWithMatch(s[i..])
  {
    MatchEndCorrect(tail);
    SuffixPastGap(s, gap, tail, 0, |gap|);
    assert s[|gap|..] == tail;
  }

  /** A round that ends at a match emits the gap and the match's anchor, and rendering resumes after the match. */
  lemma RoundAtMatch(out: string, s: string, gap: string, tail: string, e: nat, n: nat, piece: string)
    requires gap + tail == s && MatchEnd(tail) == Some(e) && n == |gap| + e
    requires piece == gap + Anchor(tail[1..e - 1])
    requires out == gap + ReplaceLink(tail)
    ensures n <= |s| && out == piece + ReplaceLink(s[n..])
  {
    AnchorAfterGap(out, gap, tail, e);
    SuffixPastGap(s, gap, tail, e, n);
  }

  /** The slices of a string split as `gap + tail`, taken at the split and `e` bytes past it. */
  lemma SplitSlices(s: string, gap: string, tail: string, e: nat, g: nat, n: nat)
    requires gap + tail == s && 2 <= e <= |tail| && g == |gap| && n == g + e
    ensures n <= |s| && s[..g] == gap && s[g..] == tail && s[n..] == tail[e..]
    ensures s[g + 1..n - 1] == tail[1..e - 1]
  {
    SuffixPastGap(s, gap, tail, e, n);
    SuffixPastGap(s, gap, tail, 0, g);
    assert s[g + 1..n - 1] == s[g..][1..e - 1];
    assert s[..g] + s[g..] == s;
  }

  /** Moving the first byte of the tail onto the gap keeps the split `gap + tail` of `s`. */
  lemma MoveFirst(s: string, gap: string, tail: string)
    requires gap + tail == s && |tail| > 0
    ensures (gap + [tail[0]]) + tail[1..] == s
  {
    ConcatAssoc(gap, [tail[0]], tail[1..]);
    assert [tail[0]] + tail[1..] == tail;
  }

  /** Skipping the gap and `k` more bytes of a string split as `gap + tail` leaves the tail's suffix. */
  lemma SuffixPastGap(s: string, gap: string, tail: string, k: nat, n: nat)
    requires gap + tail == s && k <= |tail| && n == |gap| + k
    ensures n <= |s| && s[n..] == tail[k..]
  {
    assert forall j :: 0 <= j < |tail| - k ==> s[n..][j] == s[n + j];
  }

  /** A byte of the gap before the next match moves from the unscanned tail to the copied gap. */
  lemma CopyGapByte(out: string, gap: string, tail: string)
    requires |tail| > 0 && MatchEnd(tail).None?
    requires out == gap + ReplaceLink(tail)
    ensures out == (gap + [tail[0]]) + ReplaceLink(tail[1..])
  {
    MatchEndCorrect(tail);
    ReplaceLinkAtLiteral(tail);
    ConcatAssoc(gap, [tail[0]], ReplaceLink(tail[1..]));
  }

  /** The match that ends a gap is rendered as its anchor right after the copied gap. */
  lemma AnchorAfterGap(out: string, gap: string, tail: string, e: nat)
    requires MatchEnd(tail) == Some(e)
    requires out == gap + ReplaceLink(tail)
    ensures out == (gap + Anchor(tail[1..e - 1])) + ReplaceLink(tail[e..])
  {
    MatchEndCorrect(tail);
    ReplaceLinkAtMatch(tail, e);
    ConcatAssoc(gap, Anchor(tail[1..e - 1]), ReplaceLink(tail[e..]));
  }
}

=== FILE: paths.dfy ===
/**
 * The path guard of the wiki, `^/(edit|save|view)/([a-zA-Z0-9]+)$`, and
 * the file name a page title is stored under, `data/<title>.txt`.
 */
module Paths {
  import opened Wrappers

  /** The three actions a path may name. */
  datatype Verb = Edit | Save | View

  /** The path segment that names a verb. */
  function VerbName(v: Verb): string {
    match v
    case Edit => "edit"
    case Save => "save"
    case View => "view"
  }

  /** The verb a four-character path segment names, if any. */
  function ParseVerb(w: string): (r: Option<Verb>)
    ensures r.Some? ==> VerbName(r.value) == w
    ensures forall v: Verb :: VerbName(v) == w ==> r == Some(v)
  {
    if w == "edit" then Some(Edit)
    else if w == "save" then Some(Save)
    else if w == "view" then Some(View)
    else None
  }

  /** Membership in the character class `[a-zA-Z0-9]`. */
  predicate IsTitleChar(c: char) {
    ('a' <= c <= 'z') || ('A' <= c <= 'Z') || ('0' <= c <= '9')
  }

  /** A page title: one or more letters and digits. */
  predicate IsTitle(t: string) {
    |t| > 0 && forall i :: 0 <= i < |t| ==> IsTitleChar(t[i])
  }

  /** The path `/<verb>/<title>`. */
  function PathOf(v: Verb, t: string): string {
    "/" + VerbName(v) + "/" + t
  }

  /** The two submatches of the path pattern. */
  datatype PathMatch = PathMatch(verb: Verb, title: string)

  /**
   * `validPath.FindStringSubmatch`: the verb and title of a path that
   * matches the whole pattern, or None. Every verb is four characters
   * long, so the title starts at index 6.
   */
  function MatchPath(p: string): (r: Option<PathMatch>)
    ensures r.Some? ==> IsTitle(r.value.title) && p == PathOf(r.value.verb, r.value.title)
  {
    if |p| < 7 || p[0] != '/' || p[5] != '/' then None
    else match ParseVerb(p[1..5])
      case None => None
      case Some(v) =>
        if IsTitle(p[6..]) then
          assert p == "/" + p[1..5] + "/" + p[6..];
          Some(PathMatch(v, p[6..]))
        else None
  }

  /** The slices of a composed path give back its verb and title. */
  lemma PathOfParts(v: Verb, t: string)
    ensures |PathOf(v, t)| == 6 + |t|
    ensures PathOf(v, t)[0] == '/' && PathOf(v, t)[5] == '/'
    ensures PathOf(v, t)[1..5] == VerbName(v)
    ensures PathOf(v, t)[6..] == t
  {
    var p := PathOf(v, t);
    assert p == ("/" + VerbName(v) + "/") + t;
  }

  /**
   * A path is accepted exactly when it is `/<verb>/<title>` for one of
   * the three verbs and a non-empty alphanumeric title, and the match
   * then carries exactly that verb and title.
   */
  lemma MatchPathExact(p: string, v: Verb, t: string)
    ensures MatchPath(p) == Some(PathMatch(v, t)) <==> (IsTitle(t) && p == PathOf(v, t))
  {
    if IsTitle(t) && p == PathOf(v, t) {
      PathOfParts(v, t);
    }
  }

  /** The directory pages are stored in. */
  const PageDirectory := "data"

  /** The file a page is stored in: `data/<title>.txt`. */
  function FileName(t: string): string {
    PageDirectory + "/" + t + ".txt"
  }

  /** An accepted title holds neither a path separator nor a dot. */
  lemma TitleIsPlain(t: string)
    requires IsTitle(t)
    ensures forall i :: 0 <= i < |t| ==> t[i] != '/' && t[i] != '.'
  {
  }

  /**
   * The file of an accepted title lies directly inside the page
   * directory: after `data/` its name holds no further separator, and
   * its only dot is the one of `.txt`.
   */
  lemma {:induction false} FileInPageDirectory(t: string)
    requires IsTitle(t)
    ensures FileName(t)[..5] == "data/"
    ensures FileName(t)[5..] == t + ".txt"
    ensures forall i :: 5 <= i < |FileName(t)| ==> FileName(t)[i] != '/'
    ensures forall i :: 5 <= i < |FileName(t)| && FileName(t)[i] == '.' ==> i == |FileName(t)| - 4
  {
    var f := FileName(t);
    assert f == "data/" + (t + ".txt");
    forall i | 5 <= i < |f|
      ensures f[i] != '/'
      ensures f[i] == '.' ==> i == |f| - 4
    {
      if i < 5 + |t| {
        assert f[i] == t[i - 5];
      }
    }
  }

  /** Distinct titles never share a file. */
  lemma FileNameInjective(t1: string, t2: string)
    requires FileName(t1) == FileName(t2)
    ensures t1 == t2
  {
    var f1, f2 := FileName(t1), FileName(t2);
    assert |t1| == |t2|;
    assert f1[5..5 + |t1|] == t1;
    assert f2[5..5 + |t2|] == t2;
  }
}

=== FILE: wiki.dfy ===
/**
 * Request handling of the wiki as a pure step over an abstract page
 * store: a request comes in with a path and an optional `body` form
 * field, and a response goes out together with the new store.
 *
 * The store maps file paths to their contents; a page is kept in the
 * file `data/<title>.txt`. The outcome of the I/O a request performs
 * (a failed read, a failed write, a failed template) is not computed
 * here: it is handed to every step as an `Env`.
 */
module Wiki {
  import opened Wrappers
  import Links
  import opened Paths

  /** A byte string, one byte per character. */
  type Bytes = string

  /** The page directory on disk: file path to file contents. */
  type Store = map<string, Bytes>

  /** A page: its title and the raw bytes of its body. */
  datatype Page = Page(title: string, body: Bytes)

  /** How a file write ends: completely, or failed with the file untouched or left holding some bytes. */
  datatype WriteOutcome = Written | WriteFailed(leftover: Option<Bytes>)

  /** The I/O outcomes of one request. */
  datatype Env = Env(readFails: bool, write: WriteOutcome, templateFails: bool)

  /** A request: its URL path and the value of its `body` form field, if present. */
  datatype Request = Request(path: string, form: Option<Bytes>)

  /** A response, with template execution left abstract. */
  datatype Response =
    | Redirect(location: string)
    | Render(template: string, title: string, body: Bytes, htmlBody: string)
    | NotFound
    | ServerError

  /** The title of the page the root handler redirects to. */
  const FrontPageTitle := "FrontPage"

  /** `loadPage`: the page stored under `title`; a missing or unreadable file gives None. */
  function LoadPage(store: Store, title: string, env: Env): (r: Option<Page>)
    ensures r.Some? ==> r.value.title == title
    ensures r.None? <==> FileName(title) !in store || env.readFails
    ensures r.Some? ==> r.value.body == store[FileName(title)]
  {
    var f := FileName(title);
    if f in store && !env.readFails then Some(Page(title, store[f])) else None
  }

  /**
   * `Page.save`: writes the body to the page's file, reporting whether
   * the write succeeded, together with the new store. A failed write may
   * leave the file untouched or holding some other bytes.
   */
  function SavePage(store: Store, p: Page, env: Env): (r: (bool, Store))
    ensures r.0 <==> env.write == Written
    ensures r.0 ==> LoadPage(r.1, p.title, env.(readFails := false)) == Some(p)
    ensures forall t :: t != p.title ==> LoadPage(r.1, t, env) == LoadPage(store, t, env)
  {
    var f := FileName(p.title);
    assert forall t :: t != p.title ==> FileName(t) != f by {
      forall t | FileName(t) == f ensures t == p.title {
        FileNameInjective(t, p.title);
      }
    }
    match env.write
    case Written => (true, store[f := p.body])
    case WriteFailed(None) => (false, store)
    case WriteFailed(Some(b)) => (false, store[f := b])
  }

  /** `renderTemplate`: fills in the rendered body and hands the page to the named template. */
  function RenderTemplate(template: string, p: Page, env: Env): (r: Response)
    ensures r.Render? ==> r.htmlBody == Links.ReplaceLink(r.body)
    ensures r.Render? <==> !env.templateFails
    ensures r.Render? ==> r.template == template && r.title == p.title && r.body == p.body
  {
    if env.templateFails then ServerError
    else Render(template, p.title, p.body, Links.ReplaceLink(p.body))
  }

  /** `viewHandler`: renders the page, or redirects to its editor when it cannot be loaded. */
  function ViewHandler(store: Store, title: string, env: Env): (r: (Response, Store))
    ensures r.1 == store
    ensures LoadPage(store, title, env).None? ==> r.0 == Redirect("/edit/" + title)
    ensures FileName(title) in store && !env.readFails ==>
      r.0 == RenderTemplate("view", Page(title, store[FileName(title)]), env)
  {
    match LoadPage(store, title, env)
    case None => (Redirect("/edit/" + title), store)
    case Some(p) => (RenderTemplate("view", p, env), store)
  }

  /** `editHandler`: renders the editor for the page, or for an empty page when it cannot be loaded. */
  function EditHandler(store: Store, title: string, env: Env): (r: (Response, Store))
    ensures r.1 == store
    ensures r.0.Render? || r.0 == ServerError
    ensures r.0.Render? <==> !env.templateFails
    ensures r.0.Render? ==> r.0.template == "edit" && r.0.title == title
    ensures r.0.Render? ==>
      r.0.body == (if FileName(title) in store && !env.readFails then store[FileName(title)] else [])
  {
    var p := LoadPage(store, title, env).GetOr(Page(title, []));
    (RenderTemplate("edit", p, env), store)
  }

  /** `saveHandler`: stores the submitted body and redirects to the page; a failed write is a server error. */
  function SaveHandler(store: Store, title: string, body: Bytes, env: Env): (r: (Response, Store))
    ensures r.0 == Redirect("/view/" + title) || r.0 == ServerError
    ensures r.0.Redirect? <==> env.write == Written
    ensures r.0.Redirect? ==> LoadPage(r.1, title, env.(readFails := false)) == Some(Page(title, body))
    ensures forall t :: t != title ==> LoadPage(r.1, t, env) == LoadPage(store, t, env)
  {
    var (ok, store') := SavePage(store, Page(title, body), env);
    if ok then (Redirect("/view/" + title), store') else (ServerError, store')
  }

  /** `r.FormValue("body")`: the empty string when the field is absent. */
  function FormBody(req: Request): (r: Bytes)
    ensures req.form.Some? ==> r == req.form.value
    ensures req.form.None? ==> r == []
  {
    req.form.GetOr([])
  }

  /** The handler a verb is bound to. */
  function Handle(v: Verb, store: Store, title: string, req: Request, env: Env): (Response, Store) {
    match v
    case View => ViewHandler(store, title, env)
    case Edit => EditHandler(store, title, env)
    case Save => SaveHandler(store, title, FormBody(req), env)
  }

  /** `makeHandler(fn)`: runs the handler on the title of a valid path, and answers NotFound otherwise. */
  function MakeHandler(v: Verb, store: Store, req: Request, env: Env): (r: (Response, Store))
    ensures MatchPath(req.path).None? ==> r == (NotFound, store)
  {
    match MatchPath(req.path)
    case None => (NotFound, store)
    case Some(m) => Handle(v, store, m.title, req, env)
  }

  /** `handleRoot`: every request it receives is redirected to the front page. */
  function HandleRoot(store: Store): (r: (Response, Store))
    ensures r == (Redirect("/view/FrontPage"), store)
  {
    FrontPageIsViewPath();
    (Redirect(PathOf(View, FrontPageTitle)), store)
  }

  /** The front page's location is `/view/FrontPage`, a path the guard accepts as a view of that title. */
  lemma FrontPageIsViewPath()
    ensures PathOf(View, FrontPageTitle) == "/view/FrontPage"
    ensures MatchPath("/view/FrontPage") == Some(PathMatch(View, FrontPageTitle))
  {
    var t := FrontPageTitle;
    assert forall i :: 0 <= i < |t| ==> IsTitleChar(t[i]);
    assert IsTitle(t);
    MatchPathExact(PathOf(View, t), View, t);
  }

  /** The route a path is served by: one of the three registered prefixes, or the catch-all `/`. */
  function RouteOf(path: string): Option<Verb> {
    if |path| >= 6 && path[..6] == "/view/" then Some(View)
    else if |path| >= 6 && path[..6] == "/edit/" then Some(Edit)
    else if |path| >= 6 && path[..6] == "/save/" then Some(Save)
    else None
  }

  /** One request: route it, run the handler, and return the response and the new store. */
  function Step(store: Store, req: Request, env: Env): (Response, Store) {
    match RouteOf(req.path)
    case None => HandleRoot(store)
    case Some(v) => MakeHandler(v, store, req, env)
  }

  /** The prefix `/<verb>/` a route is registered under. */
  function Prefix(v: Verb): string {
    "/" + VerbName(v) + "/"
  }

  /** A path is routed to a verb's handler exactly when it starts with that verb's prefix. */
  lemma RouteOfPrefix(path: string, v: Verb)
    ensures RouteOf(path) == Some(v) <==> Prefix(v) <= path
  {
    assert Prefix(View) == "/view/" && Prefix(Edit) == "/edit/" && Prefix(Save) == "/save/";
    if Prefix(v) <= path {
      assert path[..6] == Prefix(v);
    }
  }

  /** A path that matches the pattern is routed to the handler of the verb it names. */
  lemma RouteAgreesWithMatch(path: string)
    requires MatchPath(path).Some?
    ensures RouteOf(path) == Some(MatchPath(path).value.verb)
  {
    var m := MatchPath(path).value;
    PathOfParts(m.verb, m.title);
    assert path[..6] == Prefix(m.verb);
    RouteOfPrefix(path, m.verb);
  }

  /** The root, and every path outside the three prefixes, is redirected to the front page. */
  lemma OtherPathsRedirect(store: Store, req: Request, env: Env)
    requires forall v: Verb :: !(Prefix(v) <= req.path)
    ensures Step(store, req, env) == HandleRoot(store)
  {
    if RouteOf(req.path).Some? {
      RouteOfPrefix(req.path, RouteOf(req.path).value);
    }
  }

  /** A valid path reaches the handler of its verb with exactly its title. */
  lemma ValidPathDispatch(store: Store, v: Verb, t: string, form: Option<Bytes>, env: Env)
    requires IsTitle(t)
    ensures Step(store, Request(PathOf(v, t), form), env) == Handle(v, store, t, Request(PathOf(v, t), form), env)
  {
    MatchPathExact(PathOf(v, t), v, t);
    RouteAgreesWithMatch(PathOf(v, t));
  }

  /**
   * The response is NotFound exactly when the path has one of the three
   * prefixes but does not match the pattern; no handler runs then, so
   * the store is unchanged.
   */
  lemma NotFoundIffInvalid(store: Store, req: Request, env: Env)
    ensures Step(store, req, env).0 == NotFound <==>
      (exists v: Verb :: Prefix(v) <= req.path) && MatchPath(req.path).None?
    ensures Step(store, req, env).0 == NotFound ==> Step(store, req, env).1 == store
  {
    match RouteOf(req.path)
    case None =>
      forall v: Verb ensures !(Prefix(v) <= req.path) {
        RouteOfPrefix(req.path, v);
      }
    case Some(v) =>
      RouteOfPrefix(req.path, v);
  }

  /** Only a save request on a valid path can change the store. */
  lemma OnlySaveWrites(store: Store, req: Request, env: Env)
    requires Step(store, req, env).1 != store
    ensures MatchPath(req.path).Some? && MatchPath(req.path).value.verb == Save
  {
    RouteAgreesWithMatch(req.path);
  }

  /** Viewing a page that cannot be loaded redirects to its editor. */
  lemma ViewAbsentRedirects(store: Store, t: string, form: Option<Bytes>, env: Env)
    requires IsTitle(t) && LoadPage(store, t, env).None?
    ensures Step(store, Request(PathOf(View, t), form), env) == (Redirect("/edit/" + t), store)
  {
    ValidPathDispatch(store, View, t, form, env);
  }

  /** Viewing a stored page renders `view` with the stored body and its links rewritten. */
  lemma ViewPresentRenders(store: Store, t: string, form: Option<Bytes>, env: Env)
    requires IsTitle(t) && FileName(t) in store && !env.readFails && !env.templateFails
    ensures Step(store, Request(PathOf(View, t), form), env)
      == (Render("view", t, store[FileName(t)], Links.ReplaceLink(store[FileName(t)])), store)
  {
    ValidPathDispatch(store, View, t, form, env);
  }

  /** Editing a stored page renders `edit` with the stored body. */
  lemma EditPresentRendersStored(store: Store, t: string, form: Option<Bytes>, env: Env)
    requires IsTitle(t) && FileName(t) in store && !env.readFails && !env.templateFails
    ensures Step(store, Request(PathOf(Edit, t), form), env)
      == (Render("edit", t, store[FileName(t)], Links.ReplaceLink(store[FileName(t)])), store)
  {
    ValidPathDispatch(store, Edit, t, form, env);
  }

  /** Editing a page that cannot be loaded renders the editor on an empty page of that title. */
  lemma EditAbsentRendersEmpty(store: Store, t: string, form: Option<Bytes>, env: Env)
    requires IsTitle(t) && LoadPage(store, t, env).None? && !env.templateFails
    ensures Step(store, Request(PathOf(Edit, t), form), env) == (Render("edit", t, [], []), store)
  {
    ValidPathDispatch(store, Edit, t, form, env);
    Links.NoBracketUnchanged([]);
  }

  /**
   * A successful save redirects to the page, loading the page afterwards
   * gives the submitted body, and every other page loads as before.
   */
  lemma SaveStores(store: Store, t: string, body: Bytes, env: Env)
    requires IsTitle(t) && env.write == Written
    ensures Step(store, Request(PathOf(Save, t), Some(body)), env).0 == Redirect("/view/" + t)
    ensures LoadPage(Step(store, Request(PathOf(Save, t), Some(body)), env).1, t, env.(readFails := false))
      == Some(Page(t, body))
    ensures forall t' :: t' != t ==>
      LoadPage(Step(store, Request(PathOf(Save, t), Some(body)), env).1, t', env) == LoadPage(store, t', env)
  {
    ValidPathDispatch(store, Save, t, Some(body), env);
  }

  /** A save whose write fails is a server error, and no other page is touched. */
  lemma SaveFailureIsServerError(store: Store, t: string, form: Option<Bytes>, env: Env)
    requires IsTitle(t) && env.write.WriteFailed?
    ensures Step(store, Request(PathOf(Save, t), form), env).0 == ServerError
    ensures forall t' :: t' != t ==>
      LoadPage(Step(store, Request(PathOf(Save, t), form), env).1, t', env) == LoadPage(store, t', env)
  {
    ValidPathDispatch(store, Save, t, form, env);
  }

  /**
   * Saving a body and then viewing the page renders that body, with its
   * links rewritten.
   */
  lemma SaveThenView(store: Store, t: string, body: Bytes, env1: Env, env2: Env)
    requires IsTitle(t) && env1.write == Written
    requires !env2.readFails && !env2.templateFails
    ensures var (r1, store1) := Step(store, Request(PathOf(Save, t), Some(body)), env1);
      && r1 == Redirect("/view/" + t)
      && Step(store1, Request(PathOf(View, t), None), env2).0
         == Render("view", t, body, Links.ReplaceLink(body))
  {
    SaveStores(store, t, body, env1);
    var store1 := Step(store, Request(PathOf(Save, t), Some(body)), env1).1;
    ValidPathDispatch(store1, View, t, None, env2);
    assert LoadPage(store1, t, env2) == LoadPage(store1, t, env1.(readFails := false));
  }

  /** `/foo/bar` names no registered prefix, so it is redirected to the front page, not refused. */
  lemma UnknownVerbRedirects(store: Store, form: Option<Bytes>, env: Env)
    ensures Step(store, Request("/foo/bar", form), env) == HandleRoot(store)
  {
    forall v: Verb ensures !(Prefix(v) <= "/foo/bar") {
      assert "/foo/bar"[1] == 'f';
    }
    OtherPathsRedirect(store, Request("/foo/bar", form), env);
  }

  /** A dash is not a title character, so `/view/has-dash` is NotFound. */
  lemma DashedTitleNotFound(store: Store, form: Option<Bytes>, env: Env)
    ensures Step(store, Request("/view/has-dash", form), env) == (NotFound, store)
  {
    var p := "/view/has-dash";
    assert p[..6] == "/view/";
    assert !IsTitleChar(p[6..][3]);
  }
}

=== FILE: wrappers.dfy ===
/** The optional-value datatype used for absent pages and failed matches. */
module Wrappers {

  /** Either no value, or a value of type T. */
  datatype Option<+T> = None | Some(value: T) {

    /** The value in Some, or `default` for None. */
    function GetOr(default: T): (r: T)
      ensures Some? ==> r == value
      ensures None? ==> r == default
    {
      match this
      case Some(v) => v
      case None => default
    }
  }
}
